=== FILE: README.md ===
# OCCult countdown clock — pure core in Dafny

OCCult is a desktop countdown / count-up clock. A borderless, shaped window
(`ClockFrame`) shows the remaining or elapsed time as `D:H:M:S` text, and a
separate control panel (`ControlFrame`) sets and reads back the time, the
colours, the font and three switches. Underneath the GUI there is a small
integer core, and that core is what this project models and proves
things about:

- **Clock face text** (`ClockFrame.SetImage`): a second count is split into
  days, hours, minutes and seconds. Each part is printed with `"%02d"`.
  Leading `"00"` fields are dropped while more than two fields remain, and
  the rest are joined with `:`.
- **The tick** (`ClockFrame.OnTimer`): while not paused, the time moves one
  second up or down. It never goes below zero, and the clock is redrawn.
- **Settings** (`ClockFrame.SetOptions`): every keyword argument that is not
  `None` replaces its setting. The background colour and the window style
  are only touched when they change. The font is reloaded whenever a name
  or size is given, or when none is loaded yet.
- **Control panel buttons**: Set turns hours/minutes/seconds into seconds
  and reduces the clock colour with `% 256`. Get splits seconds back into
  hours/minutes/seconds. Pause flips the pause flag and relabels its button.

Modules:

| file | module | contents |
|---|---|---|
| `wrappers.dfy` | `Wrappers` | `Option` (Python's `None` arguments) and `Result` (a raised exception) |
| `decimal.dfy` | `Decimal` | `"%d"` and `"%02d"` on naturals, and a digit-string parser |
| `time_text.dfy` | `TimeText` | the D/H/M/S split, leading-zero stripping, `':'.join`, the clock face text, and `Parse`, its inverse |
| `clock.dfy` | `Clock` | clock window state, `SetImage`, the steps of `SetOptions`, `OnTimer` |
| `control.dfy` | `Control` | control panel state, `OnSetButton`, `OnGetButton`, `OnPauseButton` |

The program is Python 2, so `/` on these non-negative integers is floor
division. For non-negative operands it agrees with Dafny's `/` and `%` on
`nat`. Python's `int(v) % 256` takes the sign of the divisor. So for every
integer `v` it agrees with Dafny's Euclidean `%` on `int`.

`TimeText.Parse`, `ParseFields` and `FieldsValue` do not exist in the
program. They are an independent reading of the clock face back into
seconds. They serve as the inverse that `ParseFormat` proves `Format`
against.

## Model

| member | source | states |
|---|---|---|
| `Decimal.NatToString` | occult.py:111 | `"%d"`: at least one digit, no leading zero, one digit exactly below 10, at most two exactly below 100 |
| `Decimal.ParseNatToString` | occult.py:111 | reading the printed digits back gives the number |
| `Decimal.Pad2` | occult.py:111-117 | `"%02d"`: at least two digits, reads back as `n`, exactly two wide iff `n < 100`, equal to `"00"` iff `n == 0`, starts with `0` iff `n < 10` (so no extra zeros from a hundred up) |
| `TimeText.Split` | occult.py:110-117 | `days*86400 + hours*3600 + minutes*60 + seconds == sec`, with hours < 24, minutes < 60 and seconds < 60 |
| `TimeText.SplitUnique` | occult.py:110-117 | any other decomposition with those bounds that sums to `sec` is the same one |
| `TimeText.StripLeadingZeros` | occult.py:119-121 | the loop only removes fields from the front, and only `"00"` ones; it stops at two fields or at a first field that is not `"00"` |
| `TimeText.SplitJoin` | occult.py:124 | splitting `':'.join(fields)` on `:` gives the fields back when none holds a colon |
| `TimeText.Format` | occult.py:108-124 | the text has 4 fields from one day up, 3 from one hour up, else 2; they are the trailing fields of the full D:H:M:S list; a first field of `"00"` only with two fields; every field is digits, and all but the first are two wide |
| `TimeText.FormatUnderAnHour` | occult.py:119-124 | below an hour the text is `MM:SS` |
| `TimeText.FormatZero` | occult.py:110-124 | zero seconds show as `00:00` |
| `TimeText.ParseFormat` | occult.py:110-124 | reading the clock face text back gives exactly the second count it was drawn from |
| `TimeText.FormatInjective` | occult.py:110-124 | two different second counts never show the same text |
| `Clock.SetImage` | occult.py:108-142 | the drawn picture shows the given seconds, colour and mask on the clock's background colour; the background surface now holds that colour; time and settings are untouched |
| `Clock.SetPlain` | occult.py:66-103 | time, colour, mask and count-up take the given argument, or keep their value when it is `None`; nothing else changes |
| `Clock.SetBackground` | occult.py:72-77 | a `None` or unchanged background colour leaves the clock exactly as it was; a changed one replaces it and refills the surface; with no surface yet it fails |
| `Clock.SetFont` | occult.py:79-89 | a given name or size is stored; a font is loaded from the resulting name and size when either was given or none is loaded yet, else the loaded font is kept |
| `Clock.SetAlwaysOnTop` | occult.py:94-100 | the window style is rebuilt only when the flag changes, and then follows it |
| `Clock.SetOptions` | occult.py:60-106 | every setting equals the argument when one is given, else its old value; fails exactly when a new background colour arrives before any surface exists; the pause flag is kept; the clock is redrawn with the stored time, colour and mask |
| `Clock.SetOptionsValid` | occult.py:72-77 | once a surface exists `SetOptions` cannot fail, and it keeps window style and surface colour in step with the settings |
| `Clock.SetNoOptions` | occult.py:60-106 | `SetOptions()` with no arguments never fails and changes no time, flag or setting |
| `Clock.SetOptionsIdempotent` | occult.py:66-103 | applying the same arguments twice is the same as applying them once |
| `Clock.Tick` | occult.py:192-202 | paused: nothing changes; running: time + 1 counting up, time - 1 counting down but never below 0, then a redraw; settings and pause flag unchanged |
| `Clock.TicksMove` | occult.py:197-200 | `n` running ticks count up by exactly `n`, or count down by `n` and stop at 0 |
| `Clock.TicksShowTime` | occult.py:197-202 | after at least one running tick the picture shows the clock's current time |
| `Clock.CountdownFinishes` | occult.py:197-202 | a running countdown with at least as many ticks as seconds sits at 0 and shows `00:00` |
| `Clock.TickValid` | occult.py:192-202 | a tick keeps window style and surface colour in step with the settings |
| `Control.HmsToSeconds` | occult.py:413-428 | for minutes and seconds below 60, as the spin controls allow, splitting the total back gives exactly the hours, minutes and seconds entered |
| `Control.SecondsToHms` | occult.py:491-496 | minutes and seconds are below 60 and `h*3600 + m*60 + s` rebuilds the time |
| `Control.SecondsRoundTrip` | occult.py:491-496 | seconds to h/m/s and back gives the same second count |
| `Control.HmsAgreesWithClockFace` | occult.py:491-496 | the panel's hours are the clock face's days times 24 plus its hours; minutes and seconds agree with the clock face |
| `Control.Channel` | occult.py:430-445 | a clock colour component lands in 0..255, is unchanged when already there, and differs from the input by a multiple of 256 |
| `Control.ClockColor` | occult.py:430-445 | each clock colour component lands in 0..255, is kept when all three already lie there, and differs from the entered value by a multiple of 256 |
| `Control.OpenClock` | occult.py:447-451 | a new clock window after `SetOptions()` is paused at time 0 with the default settings, has loaded the default font, shows the `00:00` face in the default colours, has a surface, and is valid |
| `Control.PauseLabel` | occult.py:476 | the button reads `Resume` exactly when the clock is paused |
| `Control.Get` | occult.py:478-516 | with no clock nothing changes; otherwise the panel's h/m/s rebuild the clock's time with minutes and seconds below 60, and colours, font, size and switches are copied, the mask box inverted |
| `Control.Set` | occult.py:382-462 | on a valid program it never fails; the clock gets the entered total time, the reduced clock colour, the background as entered, the font size and the three switches (mask inverted); an empty font box keeps the clock's font name, or the default for a new clock; the pause flag is kept, and a new clock stays paused; the clock loads the font from its stored name and size and is drawn with the new time and colours; in-range h/m/s read back unchanged into the panel, and the pause label is untouched; afterwards the panel shows exactly what the clock holds, so an empty font box is filled with the clock's font name |
| `Control.Pause` | occult.py:464-476 | the pause flag flips and nothing else in the clock changes; a missing clock is opened first, its settings are read into the panel, and it starts running; the label follows the flag |
| `Control.PauseFirst` | occult.py:464-476 | pressing pause before any clock exists starts one at 0 seconds and shows 0:0:0 in the panel |
| `Control.FirstSet` | occult.py:382-462 | the first Set on the panel as first shown opens a paused clock holding the panel's one minute (60 seconds), not the clock's own default of 0, with the default settings; the panel reads back unchanged |
| `Control.PauseTwice` | occult.py:474-476 | pressing pause twice restores the clock, and the label matches its flag |
| `Control.GetThenSet` | occult.py:382-462 | Get followed by Set gives the clock back its own time, pause flag and settings when its colour components lie in 0..255 |
| `Control.ButtonsValid` | occult.py:382-476 | Set never fails on a valid program, and all three buttons keep every clock window valid |

## Left out

- Rendering: the pygame font render, surface sizing, centring, blitting, image conversion, masks and window shaping (occult.py:125-160). These are foreign library calls on pixel data. `SetImage` is modelled by the picture it records: seconds shown, colours and mask flag, and the text is `Image.Text()`.
- Paint, exit and mouse-drag handlers (occult.py:162-190): windowing-system UI with no state the core reads.
- `load_font` (occult.py:518-548): it searches the filesystem and pygame's font list. The model records the `FontSpec` (name, size) that would be loaded.
- Widget construction, sizers and layout (occult.py:210-380): pure UI glue. Only the panel's values and the pause label are modelled.
- The one-second `wx.Timer` (occult.py:48-50): real time and event delivery are not modelled; `Tick` is a single timer event, and `Ticks` is several in a row.
- The `try`/`except` around `int(...)` in `OnSetButton` (occult.py:403-445): the spin controls always return integers, so the `except` branches cannot run.
- `Control.GetThenSet`: the panel's hour count is an unbounded `nat`. The real hours spin control only runs 0..999 (occult.py:223). So for a clock that has counted up past 999:59:59, the program's Get then Set may not give the time back, while the model's does.
- Spin-control ranges: wx keeps what the user types inside each control's range, and `SetValue` may clamp. The panel's values are stored as given. `Control.HmsToSeconds` states its round trip only for minutes and seconds below 60.
- `Clock.SetOptions`: on the error path the program has already stored `sec`, `color` and `bgcolor` before it raises; the model returns only the error. The path is unreachable: `Control.ButtonsValid` shows that `Set` never fails on a valid program.
- `Clock.time` is a `nat`. The program only ever stores a clamped tick result or the Set button's non-negative total. Python integers are unbounded, so there is no wrap-around to model.

=== FILE: clock.dfy ===
/**
 * The clock window (`ClockFrame`): its settings, the picture it last drew,
 * `SetOptions`, the text part of `SetImage`, and the one-second `OnTimer` tick.
 */
module Clock {
  import opened Wrappers
  import TimeText

  /** An (r, g, b) colour triple, components as given by the caller. */
  datatype Rgb = Rgb(r: int, g: int, b: int)

  /** The font name and size handed to `load_font`. */
  datatype FontSpec = FontSpec(name: string, size: int)

  /**
   * What `SetImage` drew: the clock face for `shown` seconds, its text and
   * background colours, and the mask flag.
   */
  datatype Image = Image(shown: nat, color: Rgb, bgcolor: Rgb, mask: bool) {

    /** The text on the clock face. */
    function Text(): string {
      TimeText.Format(shown)
    }
  }

  /** The user-facing settings of a clock window. */
  datatype Settings = Settings(
    color: Rgb,
    bgcolor: Rgb,
    textFont: string,
    textSize: int,
    mask: bool,
    aot: bool,
    countup: bool)

  /**
   * What the window currently holds: the font spec last loaded (`None`
   * before the first load), the colour the background surface was last
   * filled with (`None` while no surface exists), whether the window style
   * holds `STAY_ON_TOP`, and the last picture drawn.
   */
  datatype Window = Window(
    font: Option<FontSpec>,
    background: Option<Rgb>,
    onTop: bool,
    image: Option<Image>)

  /** A clock window: the second count, the pause flag, settings and window. */
  datatype Clock = Clock(time: nat, paused: bool, settings: Settings, window: Window)

  /** The keyword arguments of `SetOptions`; `None` leaves a setting alone. */
  datatype Options = Options(
    sec: Option<nat>,
    color: Option<Rgb>,
    bgcolor: Option<Rgb>,
    textFont: Option<string>,
    textSize: Option<int>,
    mask: Option<bool>,
    aot: Option<bool>,
    countup: Option<bool>)

  /** `SetOptions()` with every argument left at `None`. */
  const NoOptions := Options(None, None, None, None, None, None, None, None)

  /** Why `SetOptions` fails: a new background colour before any surface exists. */
  datatype Error = NoBackgroundSurface

  /** The defaults table the clock window starts from. */
  const DefaultSettings := Settings(
    color := Rgb(255, 255, 255), bgcolor := Rgb(255, 0, 255), textFont := "Sans",
    textSize := 256, mask := true, aot := false, countup := false)

  /** A freshly constructed clock window: paused at the default second count (0). */
  const NewClock := Clock(0, true, DefaultSettings, Window(None, None, false, None))

  /**
   * Invariant of every clock the program builds: the window style matches
   * the always-on-top setting, and an existing background surface has the
   * current background colour.
   */
  predicate Valid(c: Clock) {
    && c.window.onTop == c.settings.aot
    && (c.window.background.Some? ==> c.window.background.value == c.settings.bgcolor)
  }

  /**
   * `SetImage(sec, color, mask)`: draws `sec` as clock face text onto a
   * surface filled with the clock's background colour. It does not store `sec`.
   */
  function SetImage(c: Clock, sec: nat, color: Rgb, mask: bool): (r: Clock)
    ensures r.window.image == Some(Image(sec, color, c.settings.bgcolor, mask))
    ensures r.window.background == Some(c.settings.bgcolor)
    ensures r.window.font == c.window.font && r.window.onTop == c.window.onTop
    ensures r.time == c.time && r.paused == c.paused && r.settings == c.settings
  {
    var s := c.settings;
    var picture := Image(sec, color, s.bgcolor, mask);
    c.(window := c.window.(background := Some(s.bgcolor), image := Some(picture)))
  }

  /** Redraws with the clock's own time, colour and mask. */
  function Redraw(c: Clock): Clock {
    SetImage(c, c.time, c.settings.color, c.settings.mask)
  }

  /** The background step of `SetOptions`: replace and refill only on a change. */
  function SetBackground(c: Clock, bgcolor: Option<Rgb>): (r: Result<Clock, Error>)
    ensures r.Err? <==> bgcolor.Some? && bgcolor.value != c.settings.bgcolor && c.window.background.None?
    ensures r.Ok? ==> r.value.settings == c.settings.(bgcolor := bgcolor.GetOr(c.settings.bgcolor))
    ensures r.Ok? && r.value.settings.bgcolor != c.settings.bgcolor ==>
      r.value.window == c.window.(background := Some(r.value.settings.bgcolor))
    ensures r.Ok? && r.value.settings.bgcolor == c.settings.bgcolor ==> r.value == c
    ensures r.Ok? ==> r.value.time == c.time && r.value.paused == c.paused
  {
    if bgcolor.None? || bgcolor.value == c.settings.bgcolor then Ok(c)
    else if c.window.background.None? then Err(NoBackgroundSurface)
    else
      Ok(c.(settings := c.settings.(bgcolor := bgcolor.value),
            window := c.window.(background := Some(bgcolor.value))))
  }

  /**
   * The font step of `SetOptions`: a new name or size, or no font loaded
   * yet, loads the font from the resulting name and size.
   */
  function SetFont(c: Clock, textFont: Option<string>, textSize: Option<int>): (r: Clock)
    ensures r.settings == c.settings.(textFont := textFont.GetOr(c.settings.textFont),
                                      textSize := textSize.GetOr(c.settings.textSize))
    ensures r.window.font ==
      if textFont.None? && textSize.None? && c.window.font.Some? then c.window.font
      else Some(FontSpec(r.settings.textFont, r.settings.textSize))
    ensures r.window == c.window.(font := r.window.font)
    ensures r.time == c.time && r.paused == c.paused
  {
    if textFont.Some? || textSize.Some? || c.window.font.None? then
      var name := textFont.GetOr(c.settings.textFont);
      var size := textSize.GetOr(c.settings.textSize);
      c.(settings := c.settings.(textFont := name, textSize := size),
         window := c.window.(font := Some(FontSpec(name, size))))
    else c
  }

  /** The always-on-top step of `SetOptions`: restyle the window only on a change. */
  function SetAlwaysOnTop(c: Clock, aot: Option<bool>): (r: Clock)
    ensures r.settings == c.settings.(aot := aot.GetOr(c.settings.aot))
    ensures r.window == c.window.(onTop := if aot.Some? && aot.value != c.settings.aot
                                           then aot.value else c.window.onTop)
    ensures r.time == c.time && r.paused == c.paused
  {
    if aot.Some? && aot.value != c.settings.aot then
      c.(settings := c.settings.(aot := aot.value), window := c.window.(onTop := aot.value))
    else c
  }

  /** The steps of `SetOptions` that only store a given argument. */
  function SetPlain(c: Clock, o: Options): (r: Clock)
    ensures r.time == o.sec.GetOr(c.time)
    ensures r.settings == c.settings.(color := o.color.GetOr(c.settings.color),
                                      mask := o.mask.GetOr(c.settings.mask),
                                      countup := o.countup.GetOr(c.settings.countup))
    ensures r.paused == c.paused && r.window == c.window
  {
    var s := c.settings;
    c.(time := o.sec.GetOr(c.time),
       settings := s.(color := o.color.GetOr(s.color), mask := o.mask.GetOr(s.mask),
                      countup := o.countup.GetOr(s.countup)))
  }

  /**
   * `SetOptions`: each given argument replaces its setting; the background
   * colour and window style are only touched when they change, the font is
   * reloaded whenever a name or size is given or none is loaded yet; the
   * clock is then redrawn.
   */
  function SetOptions(c: Clock, o: Options): (r: Result<Clock, Error>)
    ensures r.Err? <==>
      o.bgcolor.Some? && o.bgcolor.value != c.settings.bgcolor && c.window.background.None?
    ensures r.Ok? ==> var n := r.value; var s := c.settings;
      && n.time == o.sec.GetOr(c.time)
      && n.paused == c.paused
      && n.settings == Settings(
           o.color.GetOr(s.color), o.bgcolor.GetOr(s.bgcolor),
           o.textFont.GetOr(s.textFont), o.textSize.GetOr(s.textSize),
           o.mask.GetOr(s.mask), o.aot.GetOr(s.aot), o.countup.GetOr(s.countup))
      && n.window.font ==
           (if o.textFont.None? && o.textSize.None? && c.window.font.Some? then c.window.font
            else Some(FontSpec(n.settings.textFont, n.settings.textSize)))
      && n.window.onTop == (if o.aot.Some? && o.aot.value != s.aot then o.aot.value else c.window.onTop)
      && n.window.image ==
           Some(Image(n.time, n.settings.color, n.settings.bgcolor, n.settings.mask))
      && n.window.background == Some(n.settings.bgcolor)
  {
    match SetBackground(SetPlain(c, o), o.bgcolor)
    case Err(e) => Err(e)
    case Ok(c1) => Ok(Redraw(SetAlwaysOnTop(SetFont(c1, o.textFont, o.textSize), o.aot)))
  }

  /** `SetOptions` keeps the invariant; once a surface exists it cannot fail. */
  lemma SetOptionsValid(c: Clock, o: Options)
    requires Valid(c)
    ensures c.window.background.Some? ==> SetOptions(c, o).Ok?
    ensures SetOptions(c, o).Ok? ==> Valid(SetOptions(c, o).value)
  {
    var c1 := SetPlain(c, o);
    if SetBackground(c1, o.bgcolor).Ok? {
      var c2 := SetBackground(c1, o.bgcolor).value;
      assert Valid(c2);
      var c3 := SetFont(c2, o.textFont, o.textSize);
      assert Valid(c3);
      assert Valid(SetAlwaysOnTop(c3, o.aot));
    }
  }

  /** A call with no arguments changes no setting and never fails. */
  lemma SetNoOptions(c: Clock)
    ensures SetOptions(c, NoOptions).Ok?
    ensures var n := SetOptions(c, NoOptions).value;
      n.time == c.time && n.paused == c.paused && n.settings == c.settings
  {
  }

  /** Applying the same options twice is the same as applying them once. */
  lemma SetOptionsIdempotent(c: Clock, o: Options)
    requires SetOptions(c, o).Ok?
    ensures SetOptions(SetOptions(c, o).value, o) == SetOptions(c, o)
  {
    var n1 := SetOptions(c, o).value;
    var n2 := SetOptions(n1, o).value;
    assert n2.window == n1.window;
  }

  /**
   * `OnTimer`: while running, move one second up or down, never below zero,
   * and redraw; while paused, nothing happens.
   */
  function Tick(c: Clock): (r: Clock)
    ensures c.paused ==> r == c
    ensures !c.paused ==> r == Redraw(c.(time := r.time))
    ensures !c.paused && c.settings.countup ==> r.time == c.time + 1
    ensures !c.paused && !c.settings.countup ==> r.time == if c.time == 0 then 0 else c.time - 1
    ensures r.paused == c.paused && r.settings == c.settings
  {
    if c.paused then c
    else
      var moved := c.time + (if c.settings.countup then 1 else -1);
      var time := if moved < 0 then 0 else moved;
      SetImage(c.(time := time), time, c.settings.color, c.settings.mask)
  }

  /** `n` ticks in a row. */
  function Ticks(c: Clock, n: nat): Clock
    decreases n
  {
    if n == 0 then c else Ticks(Tick(c), n - 1)
  }

  /** Running clocks count up by `n` in `n` ticks, or down to zero and stay there. */
  lemma {:induction false} TicksMove(c: Clock, n: nat)
    requires !c.paused
    ensures Ticks(c, n).time ==
      if c.settings.countup then c.time + n else if c.time >= n then c.time - n else 0
    ensures Ticks(c, n).paused == c.paused && Ticks(c, n).settings == c.settings
    decreases n
  {
    if n > 0 {
      var c' := Tick(c);
      assert Ticks(c, n) == Ticks(c', n - 1);
      assert !c'.paused && c'.settings == c.settings;
      TicksMove(c', n - 1);
      if c.settings.countup {
        assert c'.time == c.time + 1;
      } else if c.time >= n {
        assert c'.time == c.time - 1;
      } else {
        assert c'.time >= n - 1 ==> c'.time == n - 1;
      }
    }
  }

  /** After at least one tick, a running clock shows its own time. */
  lemma {:induction false} TicksShowTime(c: Clock, n: nat)
    requires !c.paused && n > 0
    ensures Ticks(c, n).window.image ==
      Some(Image(Ticks(c, n).time, c.settings.color, c.settings.bgcolor, c.settings.mask))
    decreases n
  {
    var c' := Tick(c);
    assert Ticks(c, n) == Ticks(c', n - 1);
    if n > 1 {
      TicksShowTime(c', n - 1);
    }
  }

  /** A running countdown shows `00:00` once it has had as many ticks as it had seconds. */
  lemma CountdownFinishes(c: Clock, n: nat)
    requires !c.paused && !c.settings.countup && n >= c.time && n > 0
    ensures Ticks(c, n).time == 0
    ensures Ticks(c, n).window.image.Some? && Ticks(c, n).window.image.value.Text() == "00:00"
  {
    TicksMove(c, n);
    TicksShowTime(c, n);
    TimeText.FormatZero(Ticks(c, n).time);
  }

  /** Ticking keeps the invariant. */
  lemma TickValid(c: Clock)
    requires Valid(c)
    ensures Valid(Tick(c))
  {
  }
}

=== FILE: control.dfy ===
/**
 * The control panel (`ControlFrame`): the values in its input widgets, and
 * the Set, Get and Pause buttons that move them to and from the clock window.
 */
module Control {
  import opened Wrappers
  import opened Clock
  import TimeText

  /** Hours, minutes and seconds as the three time spin controls hold them. */
  datatype Hms = Hms(h: nat, m: nat, s: nat)

  /** The Set button's conversion of the time spin controls into seconds. */
  function HmsToSeconds(h: nat, m: nat, s: nat): (total: nat)
    ensures m < 60 && s < 60 ==> SecondsToHms(total) == Hms(h, m, s)
  {
    HmsSplitsBack(h, m, s);
    h * 3600 + m * 60 + s
  }

  /** In the spin controls' minute and second range, the h/m/s split is unique. */
  lemma HmsSplitsBack(h: nat, m: nat, s: nat)
    ensures m < 60 && s < 60 ==> SecondsToHms(h * 3600 + m * 60 + s) == Hms(h, m, s)
  {
    if m < 60 && s < 60 {
      TimeText.DivUnique(m * 60 + s, 60, m, s);
      TimeText.DivUnique(h * 3600 + m * 60 + s, 3600, h, m * 60 + s);
    }
  }

  /** The Get button's split of the clock's seconds back into hours, minutes, seconds. */
  function SecondsToHms(time: nat): (t: Hms)
    ensures t.m < 60 && t.s < 60
    ensures t.h * 3600 + t.m * 60 + t.s == time
  {
    var h := time / 3600;
    var rest := time % 3600;
    Hms(h, rest / 60, rest % 60)
  }

  /** Converting seconds to h/m/s and back gives the same second count. */
  lemma SecondsRoundTrip(time: nat)
    ensures var t := SecondsToHms(time); HmsToSeconds(t.h, t.m, t.s) == time
  {
  }

  /**
   * The hour count shown by the Get button is the clock face's day and hour
   * fields combined; minutes and seconds are the clock face's own.
   */
  lemma HmsAgreesWithClockFace(time: nat)
    ensures var d := TimeText.Split(time); var t := SecondsToHms(time);
      t == Hms(d.days * 24 + d.hours, d.minutes, d.seconds)
  {
    var d := TimeText.Split(time);
    var t := SecondsToHms(time);
    var rest := d.minutes * 60 + d.seconds;
    assert time == (d.days * 24 + d.hours) * 3600 + rest;
    TimeText.DivUnique(time, 3600, d.days * 24 + d.hours, rest);
    TimeText.DivUnique(rest, 60, d.minutes, d.seconds);
  }

  /** The Set button's `int(v) % 256` on a clock colour component. */
  function Channel(v: int): (c: int)
    ensures 0 <= c <= 255
    ensures 0 <= v <= 255 ==> c == v
    ensures (v - c) % 256 == 0
  {
    v % 256
  }

  /** The clock colour the Set button sends: each component reduced `% 256`. */
  function ClockColor(panel: Rgb): (c: Rgb)
    ensures 0 <= c.r <= 255 && 0 <= c.g <= 255 && 0 <= c.b <= 255
    ensures 0 <= panel.r <= 255 && 0 <= panel.g <= 255 && 0 <= panel.b <= 255 ==> c == panel
    ensures (panel.r - c.r) % 256 == 0 && (panel.g - c.g) % 256 == 0 && (panel.b - c.b) % 256 == 0
  {
    Rgb(Channel(panel.r), Channel(panel.g), Channel(panel.b))
  }

  /**
   * The control panel's widgets: time, clock colour, background colour,
   * font name and size, the "Show Background" / "Always On Top" / "Count Up"
   * check boxes, and the label of the pause button.
   */
  datatype Panel = Panel(
    hr: nat,
    min: nat,
    sec: nat,
    color: Rgb,
    background: Rgb,
    font: string,
    fontSize: int,
    showBackground: bool,
    aot: bool,
    countup: bool,
    pauseLabel: string)

  /** The panel as first shown, from the defaults table. */
  const InitialPanel := Panel(
    hr := 0, min := 1, sec := 0, color := Rgb(255, 255, 255), background := Rgb(255, 0, 255),
    font := "Sans", fontSize := 256, showBackground := false, aot := false, countup := false,
    pauseLabel := "Start")

  /** The whole program: the control panel and, once opened, the clock window. */
  datatype App = App(panel: Panel, child: Option<Clock>)

  const InitialApp := App(InitialPanel, None)

  /** Every clock window the program holds is valid and already has a surface. */
  predicate AppValid(app: App) {
    app.child.Some? ==> Valid(app.child.value) && app.child.value.window.background.Some?
  }

  /** A new clock window followed by `SetOptions()`, as both buttons do when none exists. */
  function OpenClock(): (c: Clock)
    ensures Valid(c) && c.window.background.Some?
    ensures c.time == NewClock.time && c.paused && c.settings == DefaultSettings
    ensures c.window.font == Some(FontSpec(DefaultSettings.textFont, DefaultSettings.textSize))
    ensures c.window.image == Some(Image(0, DefaultSettings.color, DefaultSettings.bgcolor, DefaultSettings.mask))
  {
    SetNoOptions(NewClock);
    SetOptions(NewClock, NoOptions).value
  }

  /** The pause button's label for a given pause flag. */
  function PauseLabel(paused: bool): (caption: string)
    ensures caption == "Resume" <==> paused
  {
    if paused then "Resume" else "Pause"
  }

  /** The Get button: copy the clock's time and settings into the panel. */
  function Get(app: App): (r: App)
    ensures r.child == app.child
    ensures app.child.None? ==> r == app
    ensures app.child.Some? ==> var c := app.child.value; var p := r.panel;
      && HmsToSeconds(p.hr, p.min, p.sec) == c.time
      && p.min < 60 && p.sec < 60
      && p.color == c.settings.color
      && p.background == c.settings.bgcolor
      && p.font == c.settings.textFont
      && p.fontSize == c.settings.textSize
      && p.showBackground == !c.settings.mask
      && p.aot == c.settings.aot
      && p.countup == c.settings.countup
      && p.pauseLabel == app.panel.pauseLabel
  {
    match app.child
    case None => app
    case Some(c) =>
      var t := SecondsToHms(c.time);
      var s := c.settings;
      SecondsRoundTrip(c.time);
      App(app.panel.(hr := t.h, min := t.m, sec := t.s, color := s.color, background := s.bgcolor,
                     font := s.textFont, fontSize := s.textSize, showBackground := !s.mask,
                     aot := s.aot, countup := s.countup),
          app.child)
  }

  /** The `SetOptions` arguments the Set button derives from the panel. */
  function PanelOptions(p: Panel): (o: Options)
    ensures o.sec == Some(HmsToSeconds(p.hr, p.min, p.sec))
    ensures o.color == Some(ClockColor(p.color)) && o.bgcolor == Some(p.background)
    ensures o.textFont == (if p.font == "" then None else Some(p.font))
    ensures o.textSize == Some(p.fontSize)
    ensures o.mask == Some(!p.showBackground)
    ensures o.aot == Some(p.aot) && o.countup == Some(p.countup)
  {
    Options(
      sec := Some(HmsToSeconds(p.hr, p.min, p.sec)),
      color := Some(ClockColor(p.color)),
      bgcolor := Some(p.background),
      textFont := if p.font == "" then None else Some(p.font),
      textSize := Some(p.fontSize),
      mask := Some(!p.showBackground),
      aot := Some(p.aot),
      countup := Some(p.countup))
  }

  /**
   * The Set button: open the clock if needed, send it the panel's settings,
   * read them back into the panel, and redraw with the time just set.
   */
  function Set(app: App): (r: Result<App, Error>)
    ensures AppValid(app) ==> r.Ok? && AppValid(r.value)
    ensures r.Ok? ==> r.value.child.Some?
    ensures r.Ok? ==> var p := app.panel; var c := r.value.child.value;
      && c.time == HmsToSeconds(p.hr, p.min, p.sec)
      && c.settings.color == ClockColor(p.color)
      && c.settings.bgcolor == p.background
      && c.settings.mask == !p.showBackground
      && c.settings.aot == p.aot
      && c.settings.countup == p.countup
      && c.settings.textSize == p.fontSize
      && c.settings.textFont ==
           (if p.font != "" then p.font
            else if app.child.Some? then app.child.value.settings.textFont
            else DefaultSettings.textFont)
      && c.paused == (app.child.None? || app.child.value.paused)
      && c.window.font == Some(FontSpec(c.settings.textFont, c.settings.textSize))
      && c.window.image == Some(Image(c.time, c.settings.color, p.background, c.settings.mask))
    ensures r.Ok? && app.panel.min < 60 && app.panel.sec < 60 ==> var p := r.value.panel;
      && p.hr == app.panel.hr && p.min == app.panel.min && p.sec == app.panel.sec
      && p.color == ClockColor(app.panel.color)
    ensures r.Ok? ==> r.value.panel.pauseLabel == app.panel.pauseLabel
    ensures r.Ok? ==> Get(r.value) == r.value
  {
    var p := app.panel;
    var child := app.child.GetOr(OpenClock());
    var o := PanelOptions(p);
    match SetOptions(child, o)
    case Err(e) => Err(e)
    case Ok(c) =>
      var shown := Get(App(p, Some(c)));
      Ok(shown.(child := Some(SetImage(c, o.sec.value, o.color.value, o.mask.value))))
  }

  /**
   * The Pause button: open the clock (and read it into the panel) if
   * needed, then flip the pause flag and relabel the button.
   */
  function Pause(app: App): (r: App)
    ensures r.child.Some?
    ensures app.child.Some? ==> r.child.value == app.child.value.(paused := !app.child.value.paused)
    ensures app.child.None? ==> r.child.value == OpenClock().(paused := false)
    ensures r.panel.pauseLabel == PauseLabel(r.child.value.paused)
    ensures app.child.Some? ==> r.panel == app.panel.(pauseLabel := r.panel.pauseLabel)
    ensures app.child.None? ==> Get(r) == r
    ensures AppValid(app) ==> AppValid(r)
  {
    var ready := if app.child.None? then Get(App(app.panel, Some(OpenClock()))) else app;
    var c := ready.child.value;
    var paused := !c.paused;
    App(ready.panel.(pauseLabel := PauseLabel(paused)), Some(c.(paused := paused)))
  }

  /**
   * Pressing pause before any clock exists starts one at the default second
   * count, zero, and reads that zero back over the panel's time fields.
   */
  lemma PauseFirst(app: App)
    requires app.child.None?
    ensures var r := Pause(app);
      && r.child.Some? && !r.child.value.paused && r.child.value.time == 0
      && r.panel.hr == 0 && r.panel.min == 0 && r.panel.sec == 0
      && r.panel.pauseLabel == "Pause"
  {
    GetAtZero(App(app.panel, Some(OpenClock())));
  }

  lemma GetAtZero(app: App)
    requires app.child.Some? && app.child.value.time == 0
    ensures Get(app).panel.hr == 0 && Get(app).panel.min == 0 && Get(app).panel.sec == 0
  {
    var p := Get(app).panel;
    NoTimeNoParts(p.hr, p.min, p.sec);
  }

  lemma NoTimeNoParts(h: nat, m: nat, s: nat)
    requires HmsToSeconds(h, m, s) == 0
    ensures h == 0 && m == 0 && s == 0
  {
  }

  /**
   * The first press of Set on the panel as first shown opens a clock that
   * stays paused and holds the panel's one minute, not the clock's own
   * default of zero seconds.
   */
  lemma FirstSet(app: App)
    requires app == InitialApp
    ensures Set(app).Ok?
    ensures var c := Set(app).value.child.value;
      c.time == 60 && c.paused && c.settings == DefaultSettings
    ensures Set(app).value.panel == app.panel
  {
  }

  /** Pressing pause twice restores the clock and leaves the label matching it. */
  lemma PauseTwice(app: App)
    requires app.child.Some?
    ensures Pause(Pause(app)).child == app.child
    ensures Pause(Pause(app)).panel.pauseLabel == PauseLabel(app.child.value.paused)
  {
  }

  /**
   * Get followed by Set hands the clock back its own time and settings,
   * as long as its colour components lie in 0..255.
   */
  lemma GetThenSet(app: App)
    requires AppValid(app) && app.child.Some?
    requires var col := app.child.value.settings.color;
      0 <= col.r <= 255 && 0 <= col.g <= 255 && 0 <= col.b <= 255
    ensures Set(Get(app)).Ok?
    ensures var c := app.child.value; var c' := Set(Get(app)).value.child.value;
      c'.time == c.time && c'.paused == c.paused && c'.settings == c.settings
  {
    var c := app.child.value;
    var p := Get(app).panel;
    var t := SecondsToHms(c.time);
    SecondsRoundTrip(c.time);
  }

  /** The Set, Get and Pause buttons keep every clock window valid. */
  lemma ButtonsValid(app: App)
    requires AppValid(app)
    ensures AppValid(Get(app))
    ensures AppValid(Pause(app))
    ensures Set(app).Ok? && AppValid(Set(app).value)
  {
  }
}

=== FILE: decimal.dfy ===
/**
 * Decimal text for non-negative integers: Python's `"%d"` and `"%02d"`
 * conversions, and a parser that inverts them.
 */
module Decimal {

  predicate IsDigit(c: char) {
    '0' <= c <= '9'
  }

  predicate AllDigits(s: string) {
    forall i :: 0 <= i < |s| ==> IsDigit(s[i])
  }

  function DigitChar(d: nat): (c: char)
    requires d < 10
    ensures IsDigit(c)
    ensures DigitValue(c) == d
  {
    (('0' as int) + d) as char
  }

  function DigitValue(c: char): (d: nat)
    requires IsDigit(c)
    ensures d < 10
  {
    (c as int) - ('0' as int)
  }

  /** The value of a string of decimal digits, most significant first. */
  function ParseNat(s: string): nat
    requires AllDigits(s)
  {
    if |s| == 0 then 0 else ParseNat(s[..|s| - 1]) * 10 + DigitValue(s[|s| - 1])
  }

  /** Shortest decimal representation of `n`, as `"%d"` prints it. */
  function NatToString(n: nat): (s: string)
    ensures |s| >= 1 && AllDigits(s)
    ensures |s| == 1 <==> n < 10
    ensures |s| <= 2 <==> n < 100
    ensures |s| > 1 ==> s[0] != '0'
  {
    if n < 10 then [DigitChar(n)] else NatToString(n / 10) + [DigitChar(n % 10)]
  }

  lemma {:induction false} ParseNatToString(n: nat)
    ensures ParseNat(NatToString(n)) == n
  {
    if n >= 10 {
      var s := NatToString(n);
      assert s[..|s| - 1] == NatToString(n / 10);
      ParseNatToString(n / 10);
    }
  }

  /**
   * `"%02d" % n`: at least two characters, a leading zero added below ten.
   * Only values of a hundred or more take more than two characters.
   */
  function Pad2(n: nat): (s: string)
    ensures |s| >= 2 && AllDigits(s)
    ensures ParseNat(s) == n
    ensures |s| == 2 <==> n < 100
    ensures s == "00" <==> n == 0
    ensures s[0] == '0' <==> n < 10
  {
    if n < 10 then
      var s := ['0', DigitChar(n)];
      assert s[..1] == "0" && "0"[..0] == "";
      assert ParseNat("0") == 0;
      s
    else
      ParseNatToString(n);
      NatToString(n)
  }
}

=== FILE: time_text.dfy ===
/**
 * The clock face text drawn by `ClockFrame.SetImage`: a second count split
 * into days, hours, minutes and seconds, each printed with `"%02d"`, leading
 * `"00"` fields dropped while more than two remain, joined with `:`.
 */
module TimeText {
  import opened Wrappers
  import opened Decimal

  const SecondsPerMinute: nat := 60
  const SecondsPerHour: nat := 3600
  const SecondsPerDay: nat := 86400

  /** A duration broken into calendar-free units. */
  datatype Dhms = Dhms(days: nat, hours: nat, minutes: nat, seconds: nat)

  function Total(t: Dhms): nat {
    t.days * SecondsPerDay + t.hours * SecondsPerHour + t.minutes * SecondsPerMinute + t.seconds
  }

  predicate Normal(t: Dhms) {
    t.hours < 24 && t.minutes < 60 && t.seconds < 60
  }

  /** The successive `/` and `%` steps at the start of `SetImage`. */
  function Split(sec: nat): (t: Dhms)
    ensures Total(t) == sec
    ensures Normal(t)
  {
    var afterDays := sec % SecondsPerDay;
    var afterHours := afterDays % SecondsPerHour;
    Dhms(sec / SecondsPerDay, afterDays / SecondsPerHour,
         afterHours / SecondsPerMinute, afterHours % SecondsPerMinute)
  }

  /** There is only one normal decomposition of a second count. */
  lemma SplitUnique(sec: nat, t: Dhms)
    requires Normal(t) && Total(t) == sec
    ensures t == Split(sec)
  {
    var u := Split(sec);
    var a := t.hours * SecondsPerHour + t.minutes * SecondsPerMinute + t.seconds;
    var b := u.hours * SecondsPerHour + u.minutes * SecondsPerMinute + u.seconds;
    assert 0 <= a < SecondsPerDay && 0 <= b < SecondsPerDay;
    assert t.days * SecondsPerDay + a == u.days * SecondsPerDay + b;
    DivUnique(sec, SecondsPerDay, t.days, a);
    DivUnique(sec, SecondsPerDay, u.days, b);
    var a' := t.minutes * SecondsPerMinute + t.seconds;
    var b' := u.minutes * SecondsPerMinute + u.seconds;
    DivUnique(a, SecondsPerHour, t.hours, a');
    DivUnique(b, SecondsPerHour, u.hours, b');
    DivUnique(a', SecondsPerMinute, t.minutes, t.seconds);
    DivUnique(b', SecondsPerMinute, u.minutes, u.seconds);
  }

  lemma DivUnique(n: nat, d: nat, q: nat, r: nat)
    requires 0 <= r < d && n == q * d + r
    ensures q == n / d && r == n % d
  {
    QuotientsAgree(q, r, n / d, n % d, d);
  }

  /** Two divisions of the same number by `d` with remainders below `d` agree. */
  lemma QuotientsAgree(q: nat, r: nat, q': nat, r': nat, d: nat)
    requires r < d && r' < d && q * d + r == q' * d + r'
    ensures q == q'
  {
    if q < q' {
      assert (q + 1) * d == q * d + d;
      MulMonotone(q + 1, q', d);
    } else if q' < q {
      assert (q' + 1) * d == q' * d + d;
      MulMonotone(q' + 1, q, d);
    }
  }

  lemma MulMonotone(a: nat, b: nat, d: nat)
    requires a <= b
    ensures a * d <= b * d
  {
  }

  /** The four `"%02d"` fields of a decomposed duration, days first. */
  function FieldsOf(t: Dhms): seq<string> {
    [Pad2(t.days), Pad2(t.hours), Pad2(t.minutes), Pad2(t.seconds)]
  }

  /** The four fields `SetImage` builds before any are dropped. */
  function Fields(sec: nat): seq<string> {
    FieldsOf(Split(sec))
  }

  /** The first `k` fields are all `"00"`. */
  predicate ZeroPrefix(fields: seq<string>, k: nat)
    requires k <= |fields|
  {
    forall i :: 0 <= i < k ==> fields[i] == "00"
  }

  /**
   * The `while timelist[0] == "00" and len(timelist) > 2` loop: drop leading
   * `"00"` fields while more than two fields remain.
   */
  function StripLeadingZeros(fields: seq<string>): (r: seq<string>)
    requires |fields| > 0
    ensures 0 < |r| <= |fields|
    ensures r == fields[|fields| - |r|..]
    ensures ZeroPrefix(fields, |fields| - |r|)
    ensures |r| < |fields| ==> |r| >= 2
    ensures |r| <= 2 || r[0] != "00"
  {
    if fields[0] == "00" && |fields| > 2 then StripLeadingZeros(fields[1..]) else fields
  }

  /** `':'.join(fields)`. */
  function Join(fields: seq<string>): string {
    if |fields| == 0 then ""
    else if |fields| == 1 then fields[0]
    else fields[0] + ":" + Join(fields[1..])
  }

  /** `text.split(':')`: the inverse of `Join` on colon-free fields. */
  function SplitColons(text: string): (fields: seq<string>)
    ensures |fields| >= 1
  {
    if |text| == 0 then [""]
    else
      var rest := SplitColons(text[1..]);
      if text[0] == ':' then [""] + rest else [[text[0]] + rest[0]] + rest[1..]
  }

  lemma {:induction false} SplitColonsPlain(a: string, b: string)
    requires ':' !in a
    ensures SplitColons(a) == [a]
    ensures SplitColons(a + ":" + b) == [a] + SplitColons(b)
  {
    if |a| == 0 {
      assert a + ":" + b == [':'] + b;
      assert (a + ":" + b)[1..] == b;
    } else {
      SplitColonsPlain(a[1..], b);
      assert (a + ":" + b)[1..] == a[1..] + ":" + b;
      assert [a[0]] + a[1..] == a;
    }
  }

  lemma {:induction false} SplitJoin(fields: seq<string>)
    requires |fields| >= 1
    requires forall i :: 0 <= i < |fields| ==> ':' !in fields[i]
    ensures SplitColons(Join(fields)) == fields
  {
    if |fields| == 1 {
      SplitColonsPlain(fields[0], "");
    } else {
      SplitJoin(fields[1..]);
      SplitColonsPlain(fields[0], Join(fields[1..]));
    }
  }

  /** How many fields the clock face keeps: days and hours only when nonzero. */
  function FieldCount(sec: nat): nat {
    if sec >= SecondsPerDay then 4 else if sec >= SecondsPerHour then 3 else 2
  }

  /** `FieldCount` read off the decomposition instead of the second count. */
  function KeptCount(t: Dhms): nat {
    if t.days != 0 then 4 else if t.hours != 0 then 3 else 2
  }

  lemma KeptCountMatches(sec: nat)
    ensures KeptCount(Split(sec)) == FieldCount(sec)
  {
    var t := Split(sec);
    assert sec >= SecondsPerDay <==> t.days != 0;
    assert sec >= SecondsPerHour <==> t.days != 0 || t.hours != 0;
  }

  predicate DigitFields(fields: seq<string>) {
    forall i :: 0 <= i < |fields| ==> AllDigits(fields[i])
  }

  /** Every field after the first is exactly two characters wide. */
  predicate TailTwoWide(fields: seq<string>) {
    forall i :: 1 <= i < |fields| ==> |fields[i]| == 2
  }

  /** Every field is at least two characters wide, as `"%02d"` makes them. */
  predicate WideFields(fields: seq<string>) {
    forall i :: 0 <= i < |fields| ==> |fields[i]| >= 2
  }

  /** Every field is digits; all but the days field are exactly two wide. */
  lemma FieldsShape(t: Dhms)
    requires Normal(t)
    ensures DigitFields(FieldsOf(t)) && TailTwoWide(FieldsOf(t)) && WideFields(FieldsOf(t))
    ensures FieldsOf(t)[0] == "00" <==> t.days == 0
    ensures FieldsOf(t)[1] == "00" <==> t.hours == 0
  {
  }

  lemma {:induction false} KeptFields(t: Dhms)
    requires Normal(t)
    ensures StripLeadingZeros(FieldsOf(t)) == FieldsOf(t)[4 - KeptCount(t)..]
  {
    var all := FieldsOf(t);
    FieldsShape(t);
    if t.days == 0 {
      assert all[1..][1..] == all[2..];
      if t.hours == 0 {
        assert StripLeadingZeros(all[2..]) == all[2..];
      }
    }
  }

  /** A suffix of well-shaped fields is well shaped. */
  lemma SuffixShape(all: seq<string>, k: nat)
    requires k < |all| && DigitFields(all) && TailTwoWide(all) && WideFields(all)
    ensures DigitFields(all[k..]) && TailTwoWide(all[k..]) && WideFields(all[k..])
  {
    forall i | 0 <= i < |all| - k
      ensures AllDigits(all[k..][i]) && |all[k..][i]| >= 2 && (i >= 1 ==> |all[k..][i]| == 2)
    {
      assert all[k..][i] == all[k + i];
    }
  }

  /** Colon-free fields are read back exactly from their joined text. */
  lemma JoinDigits(fields: seq<string>)
    requires |fields| >= 1 && DigitFields(fields)
    ensures SplitColons(Join(fields)) == fields
  {
    forall i | 0 <= i < |fields| ensures ':' !in fields[i] {
      assert AllDigits(fields[i]);
    }
    SplitJoin(fields);
  }

  lemma UnderAnHour(sec: nat)
    requires sec < SecondsPerHour
    ensures Join(StripLeadingZeros(Fields(sec))) ==
      Pad2(sec / SecondsPerMinute) + ":" + Pad2(sec % SecondsPerMinute)
  {
    var t := Split(sec);
    var kept := StripLeadingZeros(FieldsOf(t));
    KeptFields(t);
    assert t.days == 0 && t.hours == 0;
    DivUnique(sec, SecondsPerMinute, t.minutes, t.seconds);
    assert Join(kept) == kept[0] + ":" + kept[1];
  }

  /**
   * The clock face text for `sec` seconds: two to four fields, days and
   * hours shown only when nonzero, only the days field ever wider than two.
   */
  function Format(sec: nat): (text: string)
    ensures var fields := SplitColons(text);
      && |fields| == FieldCount(sec)
      && fields == Fields(sec)[4 - |fields|..]
      && (fields[0] == "00" ==> |fields| == 2)
      && DigitFields(fields) && TailTwoWide(fields)
  {
    var kept := StripLeadingZeros(Fields(sec));
    KeptSuffix(sec);
    KeptDigits(sec);
    JoinDigits(kept);
    Join(kept)
  }

  /** The kept fields are the trailing `FieldCount(sec)` fields. */
  lemma KeptSuffix(sec: nat)
    ensures var kept := StripLeadingZeros(Fields(sec));
      |kept| == FieldCount(sec) && kept == Fields(sec)[4 - |kept|..]
  {
    KeptFields(Split(sec));
    KeptCountMatches(sec);
  }

  /** The kept fields are digits, all but the first exactly two wide. */
  lemma KeptDigits(sec: nat)
    ensures var kept := StripLeadingZeros(Fields(sec));
      DigitFields(kept) && TailTwoWide(kept)
  {
    var all := Fields(sec);
    FieldsShape(Split(sec));
    SuffixShape(all, 4 - |StripLeadingZeros(all)|);
  }

  /** Under an hour the clock face is `MM:SS`. */
  lemma FormatUnderAnHour(sec: nat)
    requires sec < SecondsPerHour
    ensures Format(sec) == Pad2(sec / SecondsPerMinute) + ":" + Pad2(sec % SecondsPerMinute)
  {
    UnderAnHour(sec);
  }

  /** Seconds in one unit of the field `pos` places from the right. */
  function UnitSeconds(pos: nat): nat
    requires pos < 4
  {
    if pos == 0 then 1
    else if pos == 1 then SecondsPerMinute
    else if pos == 2 then SecondsPerHour
    else SecondsPerDay
  }

  /** The seconds that a list of at most four trailing D:H:M:S fields stands for. */
  function FieldsValue(fields: seq<string>): nat
    requires |fields| <= 4 && DigitFields(fields)
  {
    if |fields| == 0 then 0
    else ParseNat(fields[0]) * UnitSeconds(|fields| - 1) + FieldsValue(fields[1..])
  }

  /** Reads a clock face back into seconds; `None` for text no clock face has the shape of. */
  function Parse(text: string): Option<nat> {
    ParseFields(SplitColons(text))
  }

  /** The value of two to four colon-separated fields of at least two digits. */
  function ParseFields(fields: seq<string>): Option<nat> {
    if 2 <= |fields| <= 4 && DigitFields(fields) && WideFields(fields)
    then Some(FieldsValue(fields))
    else None
  }

  lemma {:induction false} DropZeroFields(fields: seq<string>, k: nat)
    requires |fields| <= 4 && DigitFields(fields) && k <= |fields|
    requires ZeroPrefix(fields, k)
    ensures FieldsValue(fields[k..]) == FieldsValue(fields)
  {
    if k > 0 {
      assert ParseNat(fields[0]) == 0 by {
        assert fields[0] == "00";
        assert "00"[..1] == "0" && "0"[..0] == "";
      }
      assert fields[1..][k - 1..] == fields[k..];
      DropZeroFields(fields[1..], k - 1);
    }
  }

  /** Zero seconds show as `00:00`. */
  lemma FormatZero(sec: nat)
    requires sec == 0
    ensures Format(sec) == "00:00"
  {
    var minutes, seconds := sec / SecondsPerMinute, sec % SecondsPerMinute;
    assert Format(sec) == Pad2(minutes) + ":" + Pad2(seconds) by {
      FormatUnderAnHour(sec);
    }
    assert minutes == 0 && seconds == 0;
    ZeroFields(Pad2(minutes), Pad2(seconds));
  }

  lemma ZeroFields(a: string, b: string)
    requires a == "00" && b == "00"
    ensures a + ":" + b == "00:00"
  {
  }

  /** Reading the clock face back gives the second count it was drawn from. */
  lemma ParseFormat(sec: nat)
    ensures Parse(Format(sec)) == Some(sec)
  {
    var t := Split(sec);
    var all := FieldsOf(t);
    assert SplitColons(Format(sec)) == StripLeadingZeros(all) by {
      KeptFields(t);
      KeptCountMatches(sec);
    }
    assert FieldsValue(all) == sec by {
      FullValue(t);
    }
    FieldsShape(t);
    ParseKept(all);
  }

  /** Parsing the kept fields gives the value of all four fields. */
  lemma ParseKept(all: seq<string>)
    requires |all| == 4 && DigitFields(all) && TailTwoWide(all) && WideFields(all)
    ensures ParseFields(StripLeadingZeros(all)) == Some(FieldsValue(all))
  {
    var kept := StripLeadingZeros(all);
    var k := 4 - |kept|;
    assert DigitFields(kept) && WideFields(kept) by {
      SuffixShape(all, k);
    }
    assert FieldsValue(kept) == FieldsValue(all) by {
      DropZeroFields(all, k);
    }
  }

  lemma FullValue(t: Dhms)
    ensures DigitFields(FieldsOf(t)) && FieldsValue(FieldsOf(t)) == Total(t)
  {
    var all := FieldsOf(t);
    assert all[1..][1..][1..][1..] == [];
    assert FieldsValue(all[3..]) == t.seconds;
    assert FieldsValue(all[2..]) == t.minutes * SecondsPerMinute + t.seconds;
    assert FieldsValue(all[1..]) == t.hours * SecondsPerHour + t.minutes * SecondsPerMinute + t.seconds;
  }

  /** Distinct second counts never show the same text. */
  lemma FormatInjective(a: nat, b: nat)
    requires Format(a) == Format(b)
    ensures a == b
  {
    ParseFormat(a);
    ParseFormat(b);
  }
}

=== FILE: wrappers.dfy ===
/** Optional values (Python's `None`) and results that may carry an error. */
module Wrappers {

  /** A value that may be absent, as a keyword argument left at `None`. */
  datatype Option<+T> = None | Some(value: T) {

    /** The wrapped value, or `default` when absent. */
    function GetOr(default: T): T {
      match this
      case Some(v) => v
      case None => default
    }
  }

  /** The outcome of an operation that raises in `occult.py`. */
  datatype Result<+T, +E> = Ok(value: T) | Err(error: E)
}
